=== FILE: README.md ===
# Trading-signal bot: filter, settings and button model

This project is a Dafny model of the decision logic in a Telegram trading-signal bot. That logic decides whether a signal reaches the configured chat, keeps each user's settings, renders a signal with its buttons, and reads button presses back. It is written as pure functions over immutable data:

- **Settings store** (`Prefs`). The bot's three in-memory dictionaries are modelled as one `Store`:
  - a per-user market-visibility map, created lazily with all five markets (forex, crypto, stocks, memecoins, polymarket) shown;
  - a per-user ICT-filter flag, off by default;
  - a loose per-user `user_data` entry holding the autotrade and halal-only flags. A key absent from the entry is modelled as `None`.

  The `/start`, `/marketvisibility` and `/ictfilter` commands, and the intended `/halalonly` and `/autotrade`, are functions from store to store. The `/halalonly` and `/autotrade` handlers as written return a `Handled`: the store together with the exception raised, if any.
- **Filter** (`Filter`). Three checks run in a fixed order, and the first one that fails denies the signal:
  1. market visibility, on the lower-cased market; a market missing from the map is shown;
  2. the ICT filter, which requires at least one of liquidity, order block or fair-value gap;
  3. the halal-only filter, for crypto and memecoins only.

  Only the configured chat's settings are consulted. With no chat configured, every signal passes.
- **Halal classifier** (`Halal`). This is a case-insensitive substring search for seven fixed keywords in the symbol and the description.
- **Rendering and sending** (`Render`, `Dispatch`). The message has a fixed eight-line layout. A halal/haram badge appears for crypto and memecoins only. Two buttons carry `CONFIRM:{symbol}:{direction}` and `IGNORE`.
- **Button presses** (`Callbacks`). A payload is split on `:` and acted on:
  - a market toggle changes settings;
  - confirm and ignore only produce a reply text.
- **Command runs** (`Bot`). Sequences of setting commands, run with the toggles as written and as intended.
- **Helpers**. `Text` holds ASCII string operations: lower/upper case, `startswith`, substring, `split`/`join`. `Access` holds the admin check and `Alerts` the spoken alert texts.

The bot filters against the single configured chat, not against each subscriber. It keeps no record of a dispatched signal and no state for Confirm or Ignore, which only change the message text. It does not reject unknown market names: a market missing from the visibility map is simply shown. The model does the same.

## Model

| member | source | states |
|---|---|---|
| `Text.ContainsIffOccurs` | main.py:123 | the left-to-right substring scan succeeds exactly when the keyword occurs at some position of the text |
| `Text.ContainsInConcat` | main.py:123 | a substring of either part is a substring of the concatenation |
| `Text.Split` | main.py:545 | splitting yields one more piece than there are separators, and no piece holds the separator |
| `Text.JoinSplit` | main.py:560 | joining the pieces of a split with the separator gives the original text back |
| `Text.SplitJoin` | main.py:560 | splitting a join of separator-free pieces gives back exactly those pieces |
| `Halal.NoKeywordIn` | main.py:122-126 | the keyword scan answers true exactly when no keyword of the list occurs in either the description or the symbol |
| `Halal.IsCoinHalal` | main.py:118-126 | a coin is non-halal exactly when one of the seven fixed keywords occurs in its lower-cased description or lower-cased symbol |
| `Halal.HalalIgnoresCase` | main.py:123 | upper-casing or lower-casing the symbol and description never changes the verdict |
| `Halal.HaramPersists` | main.py:121-126 | adding text before or after the symbol or the description never turns a non-halal verdict into halal |
| `Halal.KeywordInDescriptionIsHaram` | main.py:121-124 | one keyword occurring anywhere in the lower-cased description makes the coin non-halal |
| `Access.IsAdmin` | main.py:86-87 | a user is an admin exactly when the id appears at some position of the admin list |
| `Alerts.VoiceText` | main.py:75-84 | the spoken text is non-empty exactly for the four known alert kinds |
| `Prefs.EnsureVisibility` | main.py:335-338 | lazy creation gives the user a map equal to what they already had (all-shown default if none) and changes no other setting |
| `Prefs.FlipMarket` | main.py:546-553 | a toggle keeps the map's market set, negates only the named market (a name not in the map changes nothing), and leaves other users and the other settings alone |
| `Prefs.FlipMarketFirstTouch` | main.py:335-338 | for a user with no map yet, the toggle starts from all five markets shown: the named one ends hidden, the other four shown |
| `Prefs.FlipMarketTwice` | main.py:359-361 | toggling the same market twice restores the user's map (the default, for a new user) |
| `Prefs.MarketVisibilityCommand` | main.py:333-366 | with no argument nothing changes; with one, exactly the market equal to the lower-cased argument is negated, for this user only |
| `Prefs.ToggleIct` | main.py:394-399 | the user's ICT flag is negated, an absent flag reads as off so the first toggle enables it, and nothing else changes |
| `Prefs.ToggleIctTwice` | main.py:396-399 | two ICT toggles restore the store (once the flag has been stored) |
| `Prefs.ToggleHalalOnly` | main.py:233-238 | the intended toggle negates this user's halal-only flag (absent reads as off), keeps this user's autotrade key as it was (present or absent), and leaves every other user's entry, visibility and ICT untouched |
| `Prefs.ToggleHalalOnlyAsWritten` | main.py:233-238 | the toggle as written always raises; it leaves every halal-only flag, the visibility and ICT settings and other users' entries as they were, and leaves this user's entry as it was or, if missing, created holding only an off halal-only key |
| `Prefs.ToggleHalalOnlyNameFixed` | main.py:233-238 | with the unbound name replaced by the user's id, the toggle raises exactly when the user's entry exists without the halal-only key, leaving the store unchanged; otherwise it agrees with the intended toggle |
| `Prefs.HalalAfterAutotradeRaises` | main.py:224-238 | an admin whose first command was `/autotrade` gets an error from `/halalonly` even with the name fixed, while the intended toggle turns halal-only on |
| `Prefs.HalalToggleAsWrittenNeverEnables` | main.py:238 | an off halal-only flag stays off under the toggle as written, while the intended toggle turns it on |
| `Prefs.ToggleAutotrade` | main.py:219-228 | a non-admin changes nothing; for an admin the autotrade flag is negated (absent reads as off), the admin's halal-only key is kept as it was (present or absent), and every other user's entry, visibility and ICT are untouched |
| `Prefs.ToggleAutotradeAsWritten` | main.py:224-228 | the toggle as written raises exactly for an admin whose entry lacks the autotrade key, leaving the store unchanged; otherwise it agrees with the intended toggle |
| `Prefs.AutotradeAfterHalalToggleRaises` | main.py:224-238 | an admin whose first command was `/halalonly` gets an error from `/autotrade` as written, while the intended toggle enables autotrade |
| `Prefs.Start` | main.py:138-146 | `/start` creates each missing setting (both flags present and off for a new entry), keeps every setting that already exists, and creates no setting for any other user |
| `Prefs.StartKeepsSettings` | main.py:138-146 | after `/start` every visibility map, ICT, halal-only and autotrade flag reads the same as before, and a second `/start` changes nothing |
| `Filter.FirstFailing` | main.py:97-115 | the reported check is the first failing one in order (all before it pass); none is reported exactly when all pass |
| `Filter.Verdict` | main.py:95-115 | with no chat nothing denies; visibility denies when it fails; ICT only when visibility passed; halal-only only when both earlier checks passed |
| `Filter.ShouldDeliver` | main.py:89-115 | a signal is delivered exactly when no chat is configured or all three checks pass, whatever their order |
| `Filter.HiddenMarketDenies` | main.py:98-102 | a market the chat's map lists as hidden (after lower-casing) is denied by the visibility check, for every value of the ICT and user-data settings |
| `Filter.UnlistedMarketShown` | main.py:98-100 | a chat with no map, or a market its map does not list, is never denied by visibility |
| `Filter.IctFilterRule` | main.py:105-108 | with the ICT flag on, the ICT check denies exactly the signals with none of the three tags; with it off or absent it denies nothing |
| `Filter.HalalFilterRule` | main.py:111-114 | the halal-only check never denies outside crypto and memecoins or with the flag off; otherwise it denies exactly non-halal coins |
| `Filter.NoChatAdmitsAll` | main.py:95-115 | with no configured chat every signal passes |
| `Filter.DefaultsDoNotFilter` | main.py:138-146 | `/start` and the lazy creation of a visibility map never change a filter decision |
| `Render.Badge` | main.py:507-509 | the badge is non-empty exactly for crypto and memecoins, and reads halal or haram exactly as the classifier decides |
| `Render.ConfirmPayloadIsJoin` | main.py:522 | the confirm payload is the tag, symbol and direction joined by `:` |
| `Render.RenderSignal` | main.py:511-524 | the message has exactly two buttons, confirm carrying tag, symbol and direction joined by `:`, and ignore carrying `IGNORE` |
| `Render.RenderLayout` | main.py:511-519 | for single-line fields, reading the text back line by line gives the eight layout lines in order, the badge last |
| `Dispatch.SendSimulatedSignal` | main.py:503-532 | the filtered notice is returned exactly when the filter denies; a message is delivered exactly when it passes and the target id is non-zero, and is the rendered signal with the signal voice text |
| `Dispatch.HiddenMarketSendsNothing` | main.py:504-505 | a signal whose market the chat has hidden yields the filtered notice and no delivery |
| `Callbacks.DecodeCallback` | main.py:544-566 | decoding fails only for a confirm payload that does not split into exactly three fields; a toggle payload always decodes to a toggle |
| `Callbacks.ConfirmDecodes` | main.py:559-560 | any payload with the confirm prefix that splits into three fields decodes to its second and third fields as symbol and direction; any other field count fails |
| `Callbacks.ConfirmRoundTrip` | main.py:559-560 | the confirm payload of any symbol and direction without `:` decodes back to that symbol and direction |
| `Callbacks.ConfirmWithColonRaises` | main.py:560 | a symbol or direction holding `:` makes the confirm payload undecodable |
| `Callbacks.IgnoreRoundTrip` | main.py:564 | the ignore payload decodes as an ignore, with no payload fields |
| `Callbacks.ToggleDecodes` | main.py:544-545 | any payload with the toggle prefix has at least two fields and decodes to a toggle of its second field |
| `Callbacks.ToggleMarketSecondField` | main.py:545 | a toggle payload names the text after the prefix up to the next `:` |
| `Callbacks.ToggleMarketRoundTrip` | main.py:351 | the toggle payload built for a market name without `:` decodes to that same market |
| `Callbacks.KeyboardRoundTrip` | main.py:349-352 | every settings-keyboard button decodes to a toggle of its own market |
| `Callbacks.HandleCallback` | main.py:535-566 | a toggle press changes settings exactly as toggling that (not lower-cased) market. Its reply says the market is now visible exactly when it was hidden before, or calls the market invalid when the user's map does not list it. Confirm, ignore and unknown presses change nothing; only undecodable payloads fail |
| `Callbacks.RenderedConfirmHandled` | main.py:559-561 | pressing confirm on a rendered signal echoes its direction and symbol, without changing settings |
| `Callbacks.RenderedIgnoreHandled` | main.py:564-566 | pressing ignore on a rendered signal answers "Signal ignored.", without changing settings |
| `Callbacks.KeyboardPressTwice` | main.py:546-553 | pressing the same keyboard button twice restores the user's visibility map |
| `Bot.StepAsWrittenKeepsHalal` | main.py:233-238 | no single setting command, as written, changes any user's halal-only flag |
| `Bot.RunAsWrittenKeepsHalal` | main.py:238 | no sequence of setting commands, as written, changes any user's halal-only flag |
| `Bot.HalalFilterNeverDeniesAsWritten` | main.py:111-114 | starting from no settings, the halal-only check as written never denies a signal after any sequence of commands |
| `Bot.InterestLendingScenario` | main.py:111-126 | a crypto "interest-based lending token" signal reaches a freshly started user and is denied once halal-only is on (badge haram); the as-written toggle lets it through |

## Left out

- Telegram, Flask and webhook plumbing are left out: sending and editing messages, answering callback queries, handler registration, the webhook route and startup. These are calls into libraries outside this model. The replies of the slash commands are not modelled; the reply texts of button presses are.
- Speech synthesis and sending of voice alerts are left out; only the choice of text (`Alerts.VoiceText`) is modelled.
- PDF reports, the Ethereum withdrawal and the scheduled daily report are left out. They are foreign calls or network I/O.
- Profit logging, profit goals and daily-profit accumulation are left out. They are floating-point bookkeeping and formatting. The `/profit` handler also creates `user_data` entries with neither flag key. The model covers such entries, because every key is optional.
- Search mode is left out: it is a stub with no logic.
- Reading the environment is left out. The configured chat becomes an `Option` parameter and the admin list a `seq` parameter, so parsing `CHAT_ID` and `ADMIN_IDS` is not modelled.
- The simulated-market commands (`/forex`, `/crypto`, and so on) are left out. Each only checks admin rights and passes a constant record to `Dispatch.SendSimulatedSignal`.
- main.py:1 (`aimport os`) and main.py:630 (an unbalanced `add_handler` call) do not parse. The model assumes `import os` and a `CommandHandler("memecoins", ...)` registration.
- Halal.IsCoinHalal: lower-cases ASCII letters only, while Python's `str.lower` is Unicode-aware. The only non-ASCII characters whose lower case contains ASCII letters are U+0130 (to `i` followed by U+0307) and U+212A (to `k`). No keyword contains `k` or ends in `i`, so the verdict agrees with Python's on all text. This argument is not proved in the model.
- Render.RenderSignal: upper-cases the market in ASCII only, for the same reason.
- Prefs.MarketVisibilityCommand: lower-cases the typed argument in ASCII only. Python maps, for example, `STOC\u212AS` (with the Kelvin sign) to `stocks` and toggles that market; the model matches no market and changes nothing.
- Filter.Passes: looks the market up after ASCII-only lower-casing, so a market name with non-ASCII case variants can miss a visibility entry that Python's lookup would find.
- Dispatch.SendSimulatedSignal: the voice alert's own failure handling (its exceptions are logged and swallowed) is not modelled.

## Findings

| source | as written | input that shows it | evidently intended | confidence | as-written member | corrected member |
|---|---|---|---|---|---|---|
| main.py:238 | the update reads `user_data[user.id]`, but `user` is never bound in `toggle_halal_only_command`, so every call raises `NameError` before the flag is written | any user sending `/halalonly`, e.g. user 1 on an empty store: the flag stays off, so a crypto "interest-based lending token" signal still passes | negate `user_data[user_id]['halal_only']`, a missing key reading as off | high; not executed | `Prefs.ToggleHalalOnlyAsWritten` (consequences: `Prefs.HalalToggleAsWrittenNeverEnables`, `Bot.HalalFilterNeverDeniesAsWritten`) | `Prefs.ToggleHalalOnly` |
| main.py:224-228 | an existing `user_data` entry without `autotrade_enabled` makes line 228 raise `KeyError`; line 236 creates exactly such an entry | admin user 1 sends `/halalonly` and then `/autotrade` | treat a missing key as off and toggle it | high; not executed | `Prefs.ToggleAutotradeAsWritten` (exhibited by `Prefs.AutotradeAfterHalalToggleRaises`) | `Prefs.ToggleAutotrade` |
| main.py:238 | even with `user.id` replaced by `user_id`, the update reads `halal_only` directly; an entry created by `/autotrade` (line 226) or `/profit` (line 192) has no such key, so the read raises `KeyError` | admin user 1 sends `/autotrade` and then `/halalonly` | treat a missing key as off and toggle it | high; not executed | `Prefs.ToggleHalalOnlyNameFixed` (exhibited by `Prefs.HalalAfterAutotradeRaises`) | `Prefs.ToggleHalalOnly` |

=== FILE: access.dfy ===
/** Who may run the admin-only commands. */
module Access {

  /** A Telegram user or chat id. */
  type UserId = int

  /** Membership of `uid` in the configured admin list, found by scanning
      the list front to back. */
  function IsAdmin(admins: seq<UserId>, uid: UserId): (r: bool)
    ensures r <==> exists i :: 0 <= i < |admins| && admins[i] == uid
  {
    |admins| > 0 && (admins[0] == uid || IsAdmin(admins[1..], uid))
  }
}

=== FILE: alerts.dfy ===
/** The spoken text that accompanies an alert. Speech synthesis and sending
    the audio are not part of this model; only the choice of text is. */
module Alerts {

  /** The alert kinds that have a spoken text. */
  const AlertTypes: seq<string> :=
    ["signal", "profit", "withdrawal_success", "withdrawal_failed"]

  function VoiceText(alertType: string): (r: string)
    ensures r != "" <==> alertType in AlertTypes
  {
    if alertType == "signal" then "New signal detected."
    else if alertType == "profit" then "Profit logged."
    else if alertType == "withdrawal_success" then "Ethereum withdrawal successful."
    else if alertType == "withdrawal_failed" then "Ethereum withdrawal failed."
    else ""
  }
}

=== FILE: bot.dfy ===
/** The settings-changing commands taken together, run one after another
    on the shared store. Running them with the halal-only toggle as written
    shows that the halal-only filter can never be switched on, so it never
    denies anything; with the toggle as intended it can. */
module Bot {
  import opened Wrappers
  import opened Text
  import opened Access
  import opened Signals
  import opened Halal
  import opened Prefs
  import opened Filter
  import opened Render
  import opened Callbacks

  /** A command or button press that can change settings, with the user who
      sent it. */
  datatype Command =
    | StartCmd(uid: UserId)
    | MarketVisibilityCmd(uid: UserId, args: seq<string>)
    | ButtonPress(uid: UserId, data: string)
    | IctFilterCmd(uid: UserId)
    | HalalOnlyCmd(uid: UserId)
    | AutotradeCmd(uid: UserId)

  /** The store after a button press; a payload that makes the handler
      raise leaves it unchanged. */
  function AfterPress(st: Store, uid: UserId, data: string): Store
  {
    match HandleCallback(st, uid, data)
    case Success(outcome) => outcome.store
    case Failure(_) => st
  }

  /** One command with the halal-only and autotrade toggles as written. A
      handler that raises keeps whatever it wrote before raising. */
  function StepAsWritten(st: Store, admins: seq<UserId>, c: Command): Store
  {
    match c
    case StartCmd(uid) => Start(st, uid)
    case MarketVisibilityCmd(uid, args) => MarketVisibilityCommand(st, uid, args)
    case ButtonPress(uid, data) => AfterPress(st, uid, data)
    case IctFilterCmd(uid) => ToggleIct(st, uid)
    case HalalOnlyCmd(uid) => ToggleHalalOnlyAsWritten(st, uid).store
    case AutotradeCmd(uid) => ToggleAutotradeAsWritten(st, admins, uid).store
  }

  /** One command with every toggle as intended. */
  function Step(st: Store, admins: seq<UserId>, c: Command): Store
  {
    match c
    case StartCmd(uid) => Start(st, uid)
    case MarketVisibilityCmd(uid, args) => MarketVisibilityCommand(st, uid, args)
    case ButtonPress(uid, data) => AfterPress(st, uid, data)
    case IctFilterCmd(uid) => ToggleIct(st, uid)
    case HalalOnlyCmd(uid) => ToggleHalalOnly(st, uid)
    case AutotradeCmd(uid) => ToggleAutotrade(st, admins, uid)
  }

  function RunAsWritten(st: Store, admins: seq<UserId>, cmds: seq<Command>): Store
    decreases |cmds|
  {
    if |cmds| == 0 then st else RunAsWritten(StepAsWritten(st, admins, cmds[0]), admins, cmds[1..])
  }

  function Run(st: Store, admins: seq<UserId>, cmds: seq<Command>): Store
    decreases |cmds|
  {
    if |cmds| == 0 then st else Run(Step(st, admins, cmds[0]), admins, cmds[1..])
  }

  /** No command as written changes anyone's halal-only flag. */
  lemma StepAsWrittenKeepsHalal(st: Store, admins: seq<UserId>, c: Command)
    ensures forall u :: HalalOnlyOf(StepAsWritten(st, admins, c), u) == HalalOnlyOf(st, u)
  {
    match c
    case StartCmd(uid) => StartKeepsSettings(st, uid);
    case MarketVisibilityCmd(uid, args) =>
    case ButtonPress(uid, data) =>
    case IctFilterCmd(uid) =>
    case HalalOnlyCmd(uid) =>
    case AutotradeCmd(uid) =>
  }

  /** Whatever sequence of commands users send, as written, every
      halal-only flag keeps the value it started with. */
  lemma {:induction false} RunAsWrittenKeepsHalal(st: Store, admins: seq<UserId>, cmds: seq<Command>)
    ensures forall u :: HalalOnlyOf(RunAsWritten(st, admins, cmds), u) == HalalOnlyOf(st, u)
    decreases |cmds|
  {
    if |cmds| > 0 {
      StepAsWrittenKeepsHalal(st, admins, cmds[0]);
      RunAsWrittenKeepsHalal(StepAsWritten(st, admins, cmds[0]), admins, cmds[1..]);
    }
  }

  /** As written, starting from no settings, the halal-only check never
      denies a signal, whatever commands were sent before it. */
  lemma HalalFilterNeverDeniesAsWritten(admins: seq<UserId>, cmds: seq<Command>, chat: UserId, s: Signal)
    ensures Verdict(s, Some(PrefsOf(RunAsWritten(EmptyStore, admins, cmds), chat))) != Some(HalalOnly)
  {
    RunAsWrittenKeepsHalal(EmptyStore, admins, cmds);
    HalalFilterRule(RunAsWritten(EmptyStore, admins, cmds), chat, s);
  }

  /** Running two commands is stepping twice, in both variants. */
  lemma RunPair(st: Store, admins: seq<UserId>, a: Command, b: Command)
    ensures Run(st, admins, [a]) == Step(st, admins, a)
    ensures Run(st, admins, [a, b]) == Step(Step(st, admins, a), admins, b)
    ensures RunAsWritten(st, admins, [a, b]) == StepAsWritten(StepAsWritten(st, admins, a), admins, b)
  {
    assert [a][1..] == [];
    assert [a, b][1..] == [b];
    assert [b][1..] == [];
    var mid := Step(st, admins, a);
    assert Run(mid, admins, [b]) == Run(Step(mid, admins, b), admins, []);
    var midW := StepAsWritten(st, admins, a);
    assert RunAsWritten(midW, admins, [b]) == RunAsWritten(StepAsWritten(midW, admins, b), admins, []);
  }

  /** The description "interest-based lending token" is non-halal: it
      starts with a disallowed term. */
  lemma InterestLendingIsHaram(symbol: string)
    ensures !IsCoinHalal(symbol, "interest-based lending token")
  {
    assert OccursAt(ToLower("interest-based lending token"), "interest", 0);
    KeywordInDescriptionIsHaram(symbol, "interest-based lending token", "interest", 0);
  }

  /** A crypto signal described as "interest-based lending token" reaches a
      user who has only run `/start`. Once the user turns halal-only on, it is
      denied, and its badge reads haram. With the toggle as written, the same
      two commands still let it through. */
  lemma InterestLendingScenario(admins: seq<UserId>, uid: UserId, s: Signal)
    requires ToLower(s.market) == "crypto"
    requires s.description == "interest-based lending token"
    ensures FilterSignal(Run(EmptyStore, admins, [StartCmd(uid)]), Some(uid), s)
    ensures !FilterSignal(Run(EmptyStore, admins, [StartCmd(uid), HalalOnlyCmd(uid)]), Some(uid), s)
    ensures FilterSignal(RunAsWritten(EmptyStore, admins, [StartCmd(uid), HalalOnlyCmd(uid)]), Some(uid), s)
    ensures Badge(s) == HaramBadge
  {
    InterestLendingIsHaram(s.symbol);
    RunPair(EmptyStore, admins, StartCmd(uid), HalalOnlyCmd(uid));
    var started := Start(EmptyStore, uid);
    assert Passes(MarketVisibility, PrefsOf(started, uid), s);
  }
}

=== FILE: callbacks.dfy ===
/** Button presses. A press arrives as the button's payload text, which is
    split on `:` to recover what it stands for: a market to toggle, a trade
    to confirm (symbol and direction), or an ignored signal. Confirming and
    ignoring keep no state; they only change the message the user sees. */
module Callbacks {
  import opened Wrappers
  import opened Text
  import opened Access
  import opened Prefs
  import opened Render

  datatype Press =
    | MarketToggle(market: string)
    | ConfirmTrade(symbol: string, direction: string)
    | IgnoreSignal
    | Unrecognised

  /** The first field of a toggle payload. */
  const ToggleMarketTag: string := "TOGGLE_MARKET"
  const ToggleMarketPrefix: string := ToggleMarketTag + ":"
  const ConfirmPrefix: string := "CONFIRM:"

  /** Reading a payload. A toggle payload names the market in its second
      `:`-separated field. A confirm payload must split into exactly three
      fields; any other count makes the unpacking raise. */
  function DecodeCallback(data: string): (r: Result<Press, string>)
    ensures r.Failure? ==> StartsWith(data, ConfirmPrefix) && |Split(data, ':')| != 3
    ensures StartsWith(data, ToggleMarketPrefix) ==> r.Success? && r.value.MarketToggle?
  {
    if StartsWith(data, ToggleMarketPrefix) then
      var parts := Split(data, ':');
      assert data[13] == ':';
      assert ':' in multiset(data);
      Success(MarketToggle(parts[1]))
    else if StartsWith(data, ConfirmPrefix) then
      var parts := Split(data, ':');
      if |parts| == 3 then Success(ConfirmTrade(parts[1], parts[2]))
      else Failure("ValueError: wrong number of values to unpack")
    else if data == IgnorePayload then Success(IgnoreSignal)
    else Success(Unrecognised)
  }

  /** A payload with the confirm prefix is read as a confirm: three fields
      give the symbol and direction, any other count fails. */
  lemma ConfirmDecodes(data: string)
    requires StartsWith(data, ConfirmPrefix)
    ensures |Split(data, ':')| == 3 ==>
              DecodeCallback(data) == Success(ConfirmTrade(Split(data, ':')[1], Split(data, ':')[2]))
    ensures |Split(data, ':')| != 3 ==> DecodeCallback(data).Failure?
  {
    assert data[0] == ConfirmPrefix[0];
    assert !StartsWith(data, ToggleMarketPrefix) by {
      assert data[0] != ToggleMarketPrefix[0];
    }
  }

  /** Every confirm payload starts with the confirm prefix. */
  lemma ConfirmPayloadPrefix(symbol: string, direction: string)
    ensures StartsWith(ConfirmPayload(symbol, direction), ConfirmPrefix)
  {
    var payload := ConfirmPayload(symbol, direction);
    assert payload == ConfirmPrefix + (symbol + ":" + direction);
    assert payload[..|ConfirmPrefix|] == ConfirmPrefix;
  }

  /** The confirm payload of a rendered signal decodes back to the signal's
      symbol and direction, provided neither holds a `:`. */
  lemma ConfirmRoundTrip(symbol: string, direction: string)
    requires ':' !in symbol && ':' !in direction
    ensures DecodeCallback(ConfirmPayload(symbol, direction)) == Success(ConfirmTrade(symbol, direction))
  {
    var payload := ConfirmPayload(symbol, direction);
    ConfirmPayloadIsJoin(symbol, direction);
    SplitJoin([ConfirmTag, symbol, direction], ':');
    ConfirmPayloadPrefix(symbol, direction);
    ConfirmDecodes(payload);
  }

  /** A symbol or direction holding a `:` makes the confirm payload
      undecodable: it splits into more than three fields. */
  lemma ConfirmWithColonRaises(symbol: string, direction: string)
    requires ':' in symbol || ':' in direction
    ensures DecodeCallback(ConfirmPayload(symbol, direction)).Failure?
  {
    var payload := ConfirmPayload(symbol, direction);
    assert payload == ConfirmTag + [':'] + symbol + [':'] + direction;
    assert multiset(payload)[':'] >= 3;
    ConfirmPayloadPrefix(symbol, direction);
    ConfirmDecodes(payload);
  }

  /** The ignore payload carries nothing and decodes as an ignore. */
  lemma IgnoreRoundTrip()
    ensures DecodeCallback(IgnorePayload) == Success(IgnoreSignal)
  {
    assert !StartsWith(IgnorePayload, ToggleMarketPrefix);
    assert !StartsWith(IgnorePayload, ConfirmPrefix) by {
      assert IgnorePayload[0] != ConfirmPrefix[0];
    }
  }

  lemma TagWithoutColon()
    ensures ':' !in ToggleMarketTag
  {
  }

  /** Any payload starting with the toggle prefix decodes as a toggle of
      its second field. */
  lemma ToggleDecodes(data: string)
    requires StartsWith(data, ToggleMarketPrefix)
    ensures |Split(data, ':')| >= 2
    ensures DecodeCallback(data) == Success(MarketToggle(Split(data, ':')[1]))
  {
    assert data[13] == ':';
  }

  /** A toggle payload names the text after the prefix up to the next `:`. */
  lemma ToggleMarketSecondField(rest: string)
    ensures DecodeCallback(ToggleMarketPrefix + rest) == Success(MarketToggle(Split(rest, ':')[0]))
  {
    var data := ToggleMarketPrefix + rest;
    assert StartsWith(data, ToggleMarketPrefix) by {
      assert data[..|ToggleMarketPrefix|] == ToggleMarketPrefix;
    }
    ToggleDecodes(data);
    assert Split(data, ':')[1] == Split(rest, ':')[0] by {
      TagWithoutColon();
      assert data == ToggleMarketTag + [':'] + rest;
      SplitPieceThenSeparator(ToggleMarketTag, rest, ':');
    }
  }

  /** For a market name without `:`, the toggle payload names exactly that
      market. */
  lemma ToggleMarketRoundTrip(market: string)
    requires ':' !in market
    ensures DecodeCallback(ToggleMarketPrefix + market) == Success(MarketToggle(market))
  {
    ToggleMarketSecondField(market);
    SplitJoin([market], ':');
  }

  /** The settings keyboard: one toggle button per market, in order. */
  function MarketKeyboard(): (buttons: seq<Button>)
  {
    seq(|Markets|, i requires 0 <= i < |Markets| =>
      Button("Toggle " + Capitalize(Markets[i]), ToggleMarketPrefix + Markets[i]))
  }

  /** Each keyboard button decodes to a toggle of exactly its own market. */
  lemma KeyboardRoundTrip(i: int)
    requires 0 <= i < |Markets|
    ensures DecodeCallback(MarketKeyboard()[i].data) == Success(MarketToggle(Markets[i]))
  {
    assert ':' !in Markets[i];
    ToggleMarketRoundTrip(Markets[i]);
  }

  /** The result of handling a press: the new settings and the text the
      pressed message is replaced with, if any. */
  datatype CallbackOutcome = CallbackOutcome(store: Store, reply: Option<string>)

  /** Handling a press from user `uid`. A toggle press changes that user's
      visibility exactly as the visibility command would for the same market
      name (without lower-casing it); every other press leaves the settings
      alone. An undecodable payload raises before anything changes. */
  function HandleCallback(st: Store, uid: UserId, data: string): (r: Result<CallbackOutcome, string>)
    ensures r.Failure? <==> DecodeCallback(data).Failure?
    ensures r.Success? && DecodeCallback(data).value.MarketToggle? ==>
              r.value.store == FlipMarket(st, uid, DecodeCallback(data).value.market)
    ensures r.Success? && !DecodeCallback(data).value.MarketToggle? ==> r.value.store == st
    ensures r.Success? && DecodeCallback(data).value.Unrecognised? ==> r.value.reply.None?
    ensures r.Success? && DecodeCallback(data).value.MarketToggle? ==>
              var m := DecodeCallback(data).value.market;
              r.value.reply == Some(
                if m in VisibilityOf(st, uid) then
                  Capitalize(m) + " signals are now " + (if VisibilityOf(st, uid)[m] then "hidden" else "visible") + "."
                else "Invalid market: " + m + ".")
  {
    match DecodeCallback(data)
    case Failure(e) => Failure(e)
    case Success(press) =>
      match press
      case MarketToggle(market) =>
        var after := FlipMarket(st, uid, market);
        if market in VisibilityOf(st, uid) then
          var status := if after.visibility[uid][market] then "visible" else "hidden";
          Success(CallbackOutcome(after, Some(Capitalize(market) + " signals are now " + status + ".")))
        else
          Success(CallbackOutcome(after, Some("Invalid market: " + market + ".")))
      case ConfirmTrade(symbol, direction) =>
        Success(CallbackOutcome(st, Some("You confirmed " + direction + " for " + symbol + ". (Action recorded)")))
      case IgnoreSignal =>
        Success(CallbackOutcome(st, Some("Signal ignored.")))
      case Unrecognised =>
        Success(CallbackOutcome(st, None))
  }

  /** Pressing confirm on a rendered signal echoes the signal's own
      direction and symbol and changes no setting. */
  lemma RenderedConfirmHandled(st: Store, uid: UserId, s: Signals.Signal)
    requires ':' !in s.symbol && ':' !in s.direction
    ensures HandleCallback(st, uid, RenderSignal(s).buttons[0].data)
            == Success(CallbackOutcome(st, Some("You confirmed " + s.direction + " for " + s.symbol + ". (Action recorded)")))
  {
    var data := RenderSignal(s).buttons[0].data;
    ConfirmPayloadIsJoin(s.symbol, s.direction);
    assert data == ConfirmPayload(s.symbol, s.direction);
    ConfirmRoundTrip(s.symbol, s.direction);
    assert DecodeCallback(data) == Success(ConfirmTrade(s.symbol, s.direction));
  }

  /** Pressing ignore on a rendered signal answers with a fixed text and
      changes no setting. */
  lemma RenderedIgnoreHandled(st: Store, uid: UserId, s: Signals.Signal)
    ensures HandleCallback(st, uid, RenderSignal(s).buttons[1].data)
            == Success(CallbackOutcome(st, Some("Signal ignored.")))
  {
    assert RenderSignal(s).buttons[1].data == IgnorePayload;
    IgnoreRoundTrip();
  }

  /** Pressing a keyboard button twice leaves that user's visibility as it
      was (the default map, for a user seen for the first time). */
  lemma KeyboardPressTwice(st: Store, uid: UserId, i: int)
    requires 0 <= i < |Markets|
    ensures HandleCallback(st, uid, MarketKeyboard()[i].data).Success?
    ensures HandleCallback(HandleCallback(st, uid, MarketKeyboard()[i].data).value.store, uid,
                           MarketKeyboard()[i].data).value.store
            == EnsureVisibility(st, uid)
  {
    KeyboardRoundTrip(i);
    FlipMarketTwice(st, uid, Markets[i]);
  }
}

=== FILE: dispatch.dfy ===
/** Sending one simulated signal: filter it against the configured chat's
    settings, and if it passes, render it and send it (with a spoken alert)
    to the chat the command came from. */
module Dispatch {
  import opened Wrappers
  import opened Access
  import opened Signals
  import opened Prefs
  import opened Filter
  import opened Render
  import opened Alerts

  /** What sending a signal does: report that the filter stopped it, deliver
      a message and its spoken alert to one chat, or deliver nothing because
      no target chat was given. */
  datatype SendOutcome =
    | FilteredOut(notice: string)
    | Delivered(target: UserId, message: Message, voice: string)
    | NoTarget

  const FilteredNotice: string := "Signal filtered out by bot settings."

  /** `chat` is the configured chat whose settings the filter reads; `target`
      is the chat the command came from. A target id of 0 counts as no
      target, as it is falsy in Python. */
  function SendSimulatedSignal(st: Store, chat: Option<UserId>, s: Signal, target: Option<UserId>): (r: SendOutcome)
    ensures r.FilteredOut? <==> !FilterSignal(st, chat, s)
    ensures r.FilteredOut? ==> r.notice == FilteredNotice
    ensures r.Delivered? <==> FilterSignal(st, chat, s) && target.Some? && target.value != 0
    ensures r.Delivered? ==> r.target == target.value && r.message == RenderSignal(s)
    ensures r.Delivered? ==> r.voice == VoiceText("signal") && r.voice != ""
  {
    if !FilterSignal(st, chat, s) then FilteredOut(FilteredNotice)
    else if target.Some? && target.value != 0 then
      Delivered(target.value, RenderSignal(s), VoiceText("signal"))
    else NoTarget
  }

  /** A hidden market means nothing is sent and the filtered notice is
      returned. */
  lemma HiddenMarketSendsNothing(st: Store, chat: UserId, s: Signal, target: Option<UserId>)
    requires chat in st.visibility
    requires Text.ToLower(s.market) in st.visibility[chat] && !st.visibility[chat][Text.ToLower(s.market)]
    ensures SendSimulatedSignal(st, Some(chat), s, target) == FilteredOut(FilteredNotice)
  {
    HiddenMarketDenies(st, chat, s);
  }
}

=== FILE: filter.dfy ===
/** Whether a signal reaches the configured chat. Three checks run in a
    fixed order and the first one that fails denies the signal: market
    visibility, the ICT structural-tag filter, and the halal-only filter.
    Only the configured chat's settings are consulted; with no chat
    configured, every signal passes. */
module Filter {
  import opened Wrappers
  import opened Text
  import opened Access
  import opened Signals
  import opened Halal
  import opened Prefs

  datatype Check = MarketVisibility | IctStructure | HalalOnly

  /** The order the checks run in. */
  const FilterOrder: seq<Check> := [MarketVisibility, IctStructure, HalalOnly]

  /** One chat's settings as the filter reads them: its visibility map if it
      has one, and its two filter flags (absent flags read as off). */
  datatype ChatPrefs = ChatPrefs(visibility: Option<map<string, bool>>, ictFilter: bool, halalOnly: bool)

  function PrefsOf(st: Store, chat: UserId): ChatPrefs
  {
    ChatPrefs(
      if chat in st.visibility then Some(st.visibility[chat]) else None,
      IctOf(st, chat),
      HalalOnlyOf(st, chat))
  }

  /** Whether signal `s` survives check `c` under settings `p`.
      - A market is denied only when the map lists its lower-cased name as
        hidden; a missing map or a market the map does not list is shown.
      - With the ICT filter on, at least one structural tag must be set.
      - With halal-only on, a crypto or memecoin signal must be classified
        halal; other markets are never screened. */
  predicate Passes(c: Check, p: ChatPrefs, s: Signal)
  {
    match c
    case MarketVisibility =>
      p.visibility.None? || ToLower(s.market) !in p.visibility.value || p.visibility.value[ToLower(s.market)]
    case IctStructure => !p.ictFilter || HasIctStructure(s)
    case HalalOnly => !p.halalOnly || !IsHalalScreened(s) || IsCoinHalal(s.symbol, s.description)
  }

  /** Position of the first check in `checks` that `s` fails, if any. */
  function FirstFailing(checks: seq<Check>, p: ChatPrefs, s: Signal): (r: Option<nat>)
    ensures r.None? <==> forall i :: 0 <= i < |checks| ==> Passes(checks[i], p, s)
    ensures r.Some? ==> r.value < |checks| && !Passes(checks[r.value], p, s)
    ensures r.Some? ==> forall i :: 0 <= i < r.value ==> Passes(checks[i], p, s)
  {
    if |checks| == 0 then None
    else if !Passes(checks[0], p, s) then Some(0)
    else
      match FirstFailing(checks[1..], p, s)
      case None => None
      case Some(i) => Some(i + 1)
  }

  /** The check that denies `s`, or `None` when `s` is to be delivered. With
      no chat configured (`prefs` is `None`) nothing is checked. */
  function Verdict(s: Signal, prefs: Option<ChatPrefs>): (r: Option<Check>)
    ensures prefs.None? ==> r.None?
    ensures r == Some(MarketVisibility) <==>
              prefs.Some? && !Passes(MarketVisibility, prefs.value, s)
    ensures r == Some(IctStructure) <==>
              prefs.Some? && Passes(MarketVisibility, prefs.value, s) && !Passes(IctStructure, prefs.value, s)
    ensures r == Some(HalalOnly) <==>
              prefs.Some? && Passes(MarketVisibility, prefs.value, s) && Passes(IctStructure, prefs.value, s)
              && !Passes(HalalOnly, prefs.value, s)
  {
    if prefs.None? then None
    else
      var p := prefs.value;
      match FirstFailing(FilterOrder, p, s)
      case None =>
        assert Passes(FilterOrder[1], p, s) && Passes(FilterOrder[2], p, s);
        None
      case Some(i) =>
        assert i >= 1 ==> Passes(FilterOrder[0], p, s);
        assert i >= 2 ==> Passes(FilterOrder[1], p, s);
        Some(FilterOrder[i])
  }

  /** A signal is delivered exactly when no check denies it; the order of
      the checks decides only which one is reported. */
  function ShouldDeliver(s: Signal, prefs: Option<ChatPrefs>): (r: bool)
    ensures r <==> prefs.None? ||
                   (Passes(MarketVisibility, prefs.value, s) && Passes(IctStructure, prefs.value, s)
                    && Passes(HalalOnly, prefs.value, s))
  {
    Verdict(s, prefs).None?
  }

  /** The filter as the bot runs it: against the settings stored for the
      configured chat, if there is one. */
  function FilterSignal(st: Store, chat: Option<UserId>, s: Signal): bool
  {
    ShouldDeliver(s, if chat.Some? then Some(PrefsOf(st, chat.value)) else None)
  }

  /** A market the chat has hidden is denied, by the visibility check,
      whatever the ICT and halal-only settings are. */
  lemma HiddenMarketDenies(st: Store, chat: UserId, s: Signal)
    requires chat in st.visibility
    requires ToLower(s.market) in st.visibility[chat] && !st.visibility[chat][ToLower(s.market)]
    ensures Verdict(s, Some(PrefsOf(st, chat))) == Some(MarketVisibility)
    ensures forall ict, userData :: !FilterSignal(Store(st.visibility, ict, userData), Some(chat), s)
  {
  }

  /** A chat without a visibility map, or whose map does not list the
      signal's lower-cased market, never denies by visibility. */
  lemma UnlistedMarketShown(st: Store, chat: UserId, s: Signal)
    requires chat !in st.visibility || ToLower(s.market) !in st.visibility[chat]
    ensures Verdict(s, Some(PrefsOf(st, chat))) != Some(MarketVisibility)
  {
  }

  /** With the ICT filter on, a signal that gets past the visibility check
      is denied by the ICT check exactly when none of liquidity, order block
      and fair-value gap is set. With the flag off or never set, the ICT
      check denies nothing. */
  lemma IctFilterRule(st: Store, chat: UserId, s: Signal)
    requires Passes(MarketVisibility, PrefsOf(st, chat), s)
    ensures IctOf(st, chat) ==>
              (Verdict(s, Some(PrefsOf(st, chat))) == Some(IctStructure) <==> !HasIctStructure(s))
    ensures !IctOf(st, chat) ==> Verdict(s, Some(PrefsOf(st, chat))) != Some(IctStructure)
    ensures chat !in st.ict ==> Verdict(s, Some(PrefsOf(st, chat))) != Some(IctStructure)
  {
  }

  /** The halal-only check never denies a signal outside crypto and
      memecoins. For those two, once the earlier checks pass and the flag is
      on, it denies exactly when the classifier calls the coin non-halal. */
  lemma HalalFilterRule(st: Store, chat: UserId, s: Signal)
    ensures !IsHalalScreened(s) ==> Verdict(s, Some(PrefsOf(st, chat))) != Some(HalalOnly)
    ensures !HalalOnlyOf(st, chat) ==> Verdict(s, Some(PrefsOf(st, chat))) != Some(HalalOnly)
    ensures HalalOnlyOf(st, chat) && IsHalalScreened(s)
            && Passes(MarketVisibility, PrefsOf(st, chat), s) && Passes(IctStructure, PrefsOf(st, chat), s)
            ==> (Verdict(s, Some(PrefsOf(st, chat))) == Some(HalalOnly) <==> !IsCoinHalal(s.symbol, s.description))
  {
  }

  /** With no chat configured every signal is delivered. */
  lemma NoChatAdmitsAll(st: Store, s: Signal)
    ensures FilterSignal(st, None, s)
  {
  }

  /** `/start` and the lazy creation of a visibility map only write defaults
      down, so neither changes what the filter decides. */
  lemma DefaultsDoNotFilter(st: Store, uid: UserId, chat: Option<UserId>, s: Signal)
    ensures FilterSignal(Start(st, uid), chat, s) == FilterSignal(st, chat, s)
    ensures FilterSignal(EnsureVisibility(st, uid), chat, s) == FilterSignal(st, chat, s)
  {
    StartKeepsSettings(st, uid);
  }
}

=== FILE: halal.dfy ===
/** The keyword classifier behind the halal-only filter and the halal/haram
    badge: a coin is non-halal when a fixed keyword appears, as a substring,
    in its lower-cased description or lower-cased symbol. */
module Halal {
  import opened Text

  /** The disallowed terms, all lower-case, in the order they are tried. */
  const HaramKeywords: seq<string> :=
    ["gambling", "porn", "alcohol", "interest", "riba", "lending", "borrowing"]

  /** The scan over `keywords`: false as soon as one keyword occurs in
      `description` or in `symbol`, true when none does. */
  function NoKeywordIn(keywords: seq<string>, description: string, symbol: string): (r: bool)
    ensures r <==> forall i :: 0 <= i < |keywords| ==>
                     !Contains(description, keywords[i]) && !Contains(symbol, keywords[i])
  {
    if |keywords| == 0 then true
    else if Contains(description, keywords[0]) || Contains(symbol, keywords[0]) then false
    else NoKeywordIn(keywords[1..], description, symbol)
  }

  /** The scan fails exactly when some keyword of the list occurs in the
      description or the symbol. */
  lemma SomeKeywordIn(keywords: seq<string>, description: string, symbol: string)
    ensures !NoKeywordIn(keywords, description, symbol) <==>
              exists k :: k in keywords && (Contains(description, k) || Contains(symbol, k))
  {
    if !NoKeywordIn(keywords, description, symbol) {
      var i :| 0 <= i < |keywords| &&
               (Contains(description, keywords[i]) || Contains(symbol, keywords[i]));
      assert keywords[i] in keywords;
    }
  }

  /** A coin is halal unless some disallowed term occurs in its lower-cased
      description or lower-cased symbol. */
  function IsCoinHalal(symbol: string, description: string): (r: bool)
    ensures !r <==> exists k :: k in HaramKeywords &&
                      (Contains(ToLower(description), k) || Contains(ToLower(symbol), k))
  {
    SomeKeywordIn(HaramKeywords, ToLower(description), ToLower(symbol));
    NoKeywordIn(HaramKeywords, ToLower(description), ToLower(symbol))
  }

  /** The classification does not depend on letter case: upper-casing or
      lower-casing the symbol and description changes nothing. */
  lemma HalalIgnoresCase(symbol: string, description: string)
    ensures IsCoinHalal(ToUpper(symbol), ToUpper(description)) == IsCoinHalal(symbol, description)
    ensures IsCoinHalal(ToLower(symbol), ToLower(description)) == IsCoinHalal(symbol, description)
  {
    LowerOfUpper(symbol);
    LowerOfUpper(description);
    LowerIdempotent(symbol);
    LowerIdempotent(description);
  }

  /** A non-halal verdict is never withdrawn by adding text, before or after,
      to the symbol or the description. */
  lemma HaramPersists(symbol: string, description: string, more: string)
    requires !IsCoinHalal(symbol, description)
    ensures !IsCoinHalal(symbol, description + more)
    ensures !IsCoinHalal(symbol, more + description)
    ensures !IsCoinHalal(symbol + more, description)
    ensures !IsCoinHalal(more + symbol, description)
  {
    var k :| k in HaramKeywords &&
             (Contains(ToLower(description), k) || Contains(ToLower(symbol), k));
    LowerAppend(description, more);
    LowerAppend(more, description);
    LowerAppend(symbol, more);
    LowerAppend(more, symbol);
    ContainsInConcat(ToLower(description), ToLower(more), k);
    ContainsInConcat(ToLower(more), ToLower(description), k);
    ContainsInConcat(ToLower(symbol), ToLower(more), k);
    ContainsInConcat(ToLower(more), ToLower(symbol), k);
  }

  /** One disallowed term found in the lower-cased description is enough to
      make the coin non-halal. */
  lemma KeywordInDescriptionIsHaram(symbol: string, description: string, k: string, i: int)
    requires k in HaramKeywords
    requires OccursAt(ToLower(description), k, i)
    ensures !IsCoinHalal(symbol, description)
  {
    ContainsIffOccurs(ToLower(description), k);
  }
}

=== FILE: prefs.dfy ===
/** The per-user settings the bot keeps in memory, and the commands that
    change them. The bot holds three dictionaries keyed by user id: the
    market-visibility map, the ICT-filter flag, and a loose `user_data`
    entry holding the autotrade and halal-only flags. They are modelled as
    one immutable `Store`; every command is a function from store to store. */
module Prefs {
  import opened Wrappers
  import opened Text
  import opened Access

  /** The markets a user can show or hide, in the order the settings
      keyboard lists them. */
  const Markets: seq<string> := ["forex", "crypto", "stocks", "memecoins", "polymarket"]

  /** The visibility map a user gets on first touch: every market shown. */
  const DefaultVisibility: map<string, bool> :=
    map["forex" := true, "crypto" := true, "stocks" := true, "memecoins" := true, "polymarket" := true]

  /** A `user_data` entry, reduced to the two flags this core reads. A key
      the entry does not hold is `None`: the bot creates entries holding only
      one of the two keys. */
  datatype UserData = UserData(autotrade: Option<bool>, halalOnly: Option<bool>)

  /** The entry `/start` creates: both flags present and off. */
  const DefaultUserData := UserData(Some(false), Some(false))

  datatype Store = Store(
    visibility: map<UserId, map<string, bool>>,
    ict: map<UserId, bool>,
    userData: map<UserId, UserData>)

  /** The state before any user has interacted with the bot. */
  const EmptyStore := Store(map[], map[], map[])

  /** The outcome of a handler that may raise: the state it leaves behind
      (mutations made before the exception persist) and the exception. */
  datatype Handled = Handled(store: Store, raised: Option<string>)

  /** A user's visibility map, with the default standing in for one not yet
      created. */
  function VisibilityOf(st: Store, uid: UserId): map<string, bool>
  {
    if uid in st.visibility then st.visibility[uid] else DefaultVisibility
  }

  /** The ICT-filter flag; an absent entry reads as off. */
  function IctOf(st: Store, uid: UserId): bool
  {
    if uid in st.ict then st.ict[uid] else false
  }

  /** The halal-only flag; an absent entry or key reads as off. */
  function HalalOnlyOf(st: Store, uid: UserId): bool
  {
    if uid in st.userData then st.userData[uid].halalOnly.GetOr(false) else false
  }

  /** The autotrade flag; an absent entry or key reads as off. */
  function AutotradeOf(st: Store, uid: UserId): bool
  {
    if uid in st.userData then st.userData[uid].autotrade.GetOr(false) else false
  }

  /** Lazy creation of a user's visibility map, all markets shown. */
  function EnsureVisibility(st: Store, uid: UserId): (r: Store)
    ensures uid in r.visibility && r.visibility[uid] == VisibilityOf(st, uid)
    ensures forall u :: u != uid ==> VisibilityOf(r, u) == VisibilityOf(st, u)
    ensures r.ict == st.ict && r.userData == st.userData
  {
    if uid in st.visibility then st
    else st.(visibility := st.visibility[uid := DefaultVisibility])
  }

  /** Toggling one market for one user, as both the visibility command and
      the settings keyboard do: the map is created if missing, then the named
      market is negated if the map holds it; a name the map does not hold
      changes nothing. Other markets, other users and the other settings are
      untouched. */
  function FlipMarket(st: Store, uid: UserId, market: string): (r: Store)
    ensures uid in r.visibility
    ensures r.visibility[uid].Keys == VisibilityOf(st, uid).Keys
    ensures forall m :: m in r.visibility[uid] ==>
              r.visibility[uid][m] == (if m == market then !VisibilityOf(st, uid)[m]
                                       else VisibilityOf(st, uid)[m])
    ensures forall u :: u != uid ==> VisibilityOf(r, u) == VisibilityOf(st, u)
    ensures r.ict == st.ict && r.userData == st.userData
  {
    var st1 := EnsureVisibility(st, uid);
    var settings := st1.visibility[uid];
    if market in settings then
      st1.(visibility := st1.visibility[uid := settings[market := !settings[market]]])
    else st1
  }

  /** On first touch, a toggle starts from all five markets shown: the named
      market ends up hidden and the other four shown. */
  lemma FlipMarketFirstTouch(st: Store, uid: UserId, market: string)
    requires uid !in st.visibility
    ensures FlipMarket(st, uid, market).visibility[uid].Keys == DefaultVisibility.Keys
    ensures forall i :: 0 <= i < |Markets| ==>
              FlipMarket(st, uid, market).visibility[uid][Markets[i]] == (Markets[i] != market)
  {
  }

  /** Toggling the same market twice gives back the map the user had (the
      lazily created default, for a user seen for the first time). */
  lemma FlipMarketTwice(st: Store, uid: UserId, market: string)
    ensures FlipMarket(FlipMarket(st, uid, market), uid, market) == EnsureVisibility(st, uid)
  {
    var r := FlipMarket(FlipMarket(st, uid, market), uid, market);
    var e := EnsureVisibility(st, uid);
    assert r.visibility[uid] == e.visibility[uid];
    assert r.visibility.Keys == e.visibility.Keys;
    assert r.visibility == e.visibility;
  }

  /** `/marketvisibility` with no argument only shows the settings; with an
      argument it toggles that market, lower-cased first, so `Forex` and
      `FOREX` both toggle `forex`. */
  function MarketVisibilityCommand(st: Store, uid: UserId, args: seq<string>): (r: Store)
    ensures uid in r.visibility
    ensures VisibilityOf(r, uid).Keys == VisibilityOf(st, uid).Keys
    ensures forall m :: m in VisibilityOf(r, uid) ==>
              VisibilityOf(r, uid)[m] == (VisibilityOf(st, uid)[m] != (|args| > 0 && m == ToLower(args[0])))
    ensures forall u :: u != uid ==> VisibilityOf(r, u) == VisibilityOf(st, u)
    ensures r.ict == st.ict && r.userData == st.userData
  {
    if |args| == 0 then EnsureVisibility(st, uid)
    else FlipMarket(st, uid, ToLower(args[0]))
  }

  /** `/ictfilter`: negate the user's ICT flag, an absent flag counting as
      off. */
  function ToggleIct(st: Store, uid: UserId): (r: Store)
    ensures IctOf(r, uid) == !IctOf(st, uid)
    ensures uid !in st.ict ==> IctOf(r, uid)
    ensures forall u :: u != uid ==> IctOf(r, u) == IctOf(st, u)
    ensures r.visibility == st.visibility && r.userData == st.userData
  {
    st.(ict := st.ict[uid := !IctOf(st, uid)])
  }

  /** Two ICT toggles leave the flag as it was, now stored explicitly. */
  lemma ToggleIctTwice(st: Store, uid: UserId)
    ensures ToggleIct(ToggleIct(st, uid), uid) == st.(ict := st.ict[uid := IctOf(st, uid)])
    ensures uid in st.ict ==> ToggleIct(ToggleIct(st, uid), uid) == st
  {
    if uid in st.ict {
      assert st.ict[uid := st.ict[uid]] == st.ict;
    }
  }

  /** `/halalonly` as the bot evidently intends it: create the entry if
      missing, then negate the user's halal-only flag, an absent key counting
      as off. The autotrade flag and every other user are untouched. */
  function ToggleHalalOnly(st: Store, uid: UserId): (r: Store)
    ensures HalalOnlyOf(r, uid) == !HalalOnlyOf(st, uid)
    ensures forall u :: u != uid ==> HalalOnlyOf(r, u) == HalalOnlyOf(st, u)
    ensures forall u :: AutotradeOf(r, u) == AutotradeOf(st, u)
    ensures r.visibility == st.visibility && r.ict == st.ict
    ensures forall u :: u != uid ==>
              (u in r.userData <==> u in st.userData) &&
              (u in st.userData ==> r.userData[u] == st.userData[u])
    ensures uid in r.userData &&
            r.userData[uid].autotrade == (if uid in st.userData then st.userData[uid].autotrade else None)
  {
    var entry := if uid in st.userData then st.userData[uid] else UserData(None, Some(false));
    st.(userData := st.userData[uid := entry.(halalOnly := Some(!entry.halalOnly.GetOr(false)))])
  }

  /** `/halalonly` as written: the entry is created if missing, and then the
      update reads the flag through a name the handler never binds, so the
      handler raises before the flag is written. */
  function ToggleHalalOnlyAsWritten(st: Store, uid: UserId): (r: Handled)
    ensures r.raised.Some?
    ensures forall u :: HalalOnlyOf(r.store, u) == HalalOnlyOf(st, u)
    ensures r.store.visibility == st.visibility && r.store.ict == st.ict
    ensures forall u :: u != uid ==>
              (u in r.store.userData <==> u in st.userData) &&
              (u in st.userData ==> r.store.userData[u] == st.userData[u])
    ensures uid in r.store.userData &&
            r.store.userData[uid] == (if uid in st.userData then st.userData[uid] else UserData(None, Some(false)))
  {
    var entry := if uid in st.userData then st.userData[uid] else UserData(None, Some(false));
    Handled(st.(userData := st.userData[uid := entry]), Some("NameError: name 'user' is not defined"))
  }

  /** `/halalonly` with the unbound name replaced by the user's id, but the
      update still reading the key directly: an entry that exists without
      the halal-only key makes that read raise, leaving the state as it was. */
  function ToggleHalalOnlyNameFixed(st: Store, uid: UserId): (r: Handled)
    ensures r.raised.Some? <==> uid in st.userData && st.userData[uid].halalOnly.None?
    ensures r.raised.Some? ==> r.store == st
    ensures r.raised.None? ==> r.store == ToggleHalalOnly(st, uid)
  {
    if uid !in st.userData then
      Handled(st.(userData := st.userData[uid := UserData(None, Some(true))]), None)
    else
      var entry := st.userData[uid];
      match entry.halalOnly
      case None => Handled(st, Some("KeyError: 'halal_only'"))
      case Some(on) => Handled(st.(userData := st.userData[uid := entry.(halalOnly := Some(!on))]), None)
  }

  /** An admin who used `/autotrade` before ever using `/halalonly` still
      cannot turn halal-only on once the unbound name is fixed, because the
      entry `/autotrade` created has no halal-only key; the intended command
      turns it on. */
  lemma HalalAfterAutotradeRaises(admins: seq<UserId>, uid: UserId)
    requires IsAdmin(admins, uid)
    ensures ToggleHalalOnlyNameFixed(ToggleAutotradeAsWritten(EmptyStore, admins, uid).store, uid).raised.Some?
    ensures HalalOnlyOf(ToggleHalalOnly(ToggleAutotradeAsWritten(EmptyStore, admins, uid).store, uid), uid)
  {
  }

  /** The halal-only flag of a user who has it off is still off after the
      command as written, while the intended command turns it on. */
  lemma HalalToggleAsWrittenNeverEnables(st: Store, uid: UserId)
    requires !HalalOnlyOf(st, uid)
    ensures !HalalOnlyOf(ToggleHalalOnlyAsWritten(st, uid).store, uid)
    ensures HalalOnlyOf(ToggleHalalOnly(st, uid), uid)
  {
  }

  /** `/autotrade` as evidently intended: admins only (anyone else changes
      nothing); create the entry if missing, then negate the flag, an absent
      key counting as off. */
  function ToggleAutotrade(st: Store, admins: seq<UserId>, uid: UserId): (r: Store)
    ensures !IsAdmin(admins, uid) ==> r == st
    ensures IsAdmin(admins, uid) ==> AutotradeOf(r, uid) == !AutotradeOf(st, uid)
    ensures forall u :: u != uid ==> AutotradeOf(r, u) == AutotradeOf(st, u)
    ensures forall u :: HalalOnlyOf(r, u) == HalalOnlyOf(st, u)
    ensures r.visibility == st.visibility && r.ict == st.ict
    ensures forall u :: u != uid ==>
              (u in r.userData <==> u in st.userData) &&
              (u in st.userData ==> r.userData[u] == st.userData[u])
    ensures IsAdmin(admins, uid) ==>
              uid in r.userData &&
              r.userData[uid].halalOnly == (if uid in st.userData then st.userData[uid].halalOnly else None)
  {
    if !IsAdmin(admins, uid) then st
    else
      var entry := if uid in st.userData then st.userData[uid] else UserData(Some(false), None);
      st.(userData := st.userData[uid := entry.(autotrade := Some(!entry.autotrade.GetOr(false)))])
  }

  /** `/autotrade` as written: an entry that exists without the autotrade key
      makes the read of that key raise, leaving the state as it was. */
  function ToggleAutotradeAsWritten(st: Store, admins: seq<UserId>, uid: UserId): (r: Handled)
    ensures r.raised.Some? <==>
              IsAdmin(admins, uid) && uid in st.userData && st.userData[uid].autotrade.None?
    ensures r.raised.Some? ==> r.store == st
    ensures r.raised.None? ==> r.store == ToggleAutotrade(st, admins, uid)
  {
    if !IsAdmin(admins, uid) then Handled(st, None)
    else if uid !in st.userData then
      Handled(st.(userData := st.userData[uid := UserData(Some(true), None)]), None)
    else
      var entry := st.userData[uid];
      match entry.autotrade
      case None => Handled(st, Some("KeyError: 'autotrade_enabled'"))
      case Some(on) => Handled(st.(userData := st.userData[uid := entry.(autotrade := Some(!on))]), None)
  }

  /** An admin who used `/halalonly` before ever using `/autotrade` cannot
      toggle autotrade as written, while the intended command turns it on. */
  lemma AutotradeAfterHalalToggleRaises(admins: seq<UserId>, uid: UserId)
    requires IsAdmin(admins, uid)
    ensures ToggleAutotradeAsWritten(ToggleHalalOnlyAsWritten(EmptyStore, uid).store, admins, uid).raised.Some?
    ensures AutotradeOf(ToggleAutotrade(ToggleHalalOnlyAsWritten(EmptyStore, uid).store, admins, uid), uid)
  {
  }

  /** `/start`: create whichever of the three settings the user lacks, with
      their defaults; settings the user already has are kept. */
  function Start(st: Store, uid: UserId): (r: Store)
    ensures uid in r.visibility && uid in r.ict && uid in r.userData
    ensures uid !in st.userData ==> r.userData[uid] == DefaultUserData
    ensures forall u :: u in st.visibility ==> u in r.visibility && r.visibility[u] == st.visibility[u]
    ensures forall u :: u in st.ict ==> u in r.ict && r.ict[u] == st.ict[u]
    ensures forall u :: u in st.userData ==> u in r.userData && r.userData[u] == st.userData[u]
    ensures forall u :: u != uid ==>
              (u in r.visibility <==> u in st.visibility) && (u in r.ict <==> u in st.ict) &&
              (u in r.userData <==> u in st.userData)
  {
    Store(
      if uid in st.visibility then st.visibility else st.visibility[uid := DefaultVisibility],
      if uid in st.ict then st.ict else st.ict[uid := false],
      if uid in st.userData then st.userData else st.userData[uid := DefaultUserData])
  }

  /** `/start` only writes down defaults: every setting reads the same
      before and after it, and running it again changes nothing. */
  lemma StartKeepsSettings(st: Store, uid: UserId)
    ensures forall u :: VisibilityOf(Start(st, uid), u) == VisibilityOf(st, u)
    ensures forall u :: IctOf(Start(st, uid), u) == IctOf(st, u)
    ensures forall u :: HalalOnlyOf(Start(st, uid), u) == HalalOnlyOf(st, u)
    ensures forall u :: AutotradeOf(Start(st, uid), u) == AutotradeOf(st, u)
    ensures Start(Start(st, uid), uid) == Start(st, uid)
  {
  }
}

=== FILE: render.dfy ===
/** How a signal that passed the filter is shown: a fixed-layout text, with
    a halal/haram badge for crypto and memecoins only, and two buttons whose
    callback payloads are `CONFIRM:{symbol}:{direction}` and `IGNORE`. */
module Render {
  import opened Text
  import opened Signals
  import opened Halal

  datatype Button = Button(caption: string, data: string)

  datatype Message = Message(text: string, buttons: seq<Button>)

  const HalalBadge: string := "\U{1F7E2} Halal"
  const HaramBadge: string := "\U{1F534} Haram"

  /** The first field of a confirm payload. */
  const ConfirmTag: string := "CONFIRM"

  /** The whole payload of the ignore button. */
  const IgnorePayload: string := "IGNORE"

  /** The badge line: empty outside crypto and memecoins, otherwise the
      classifier's verdict on the symbol and description. */
  function Badge(s: Signal): (b: string)
    ensures b != "" <==> IsHalalScreened(s)
    ensures b == HalalBadge <==> IsHalalScreened(s) && IsCoinHalal(s.symbol, s.description)
    ensures b == HaramBadge <==> IsHalalScreened(s) && !IsCoinHalal(s.symbol, s.description)
  {
    if IsHalalScreened(s) then
      (if IsCoinHalal(s.symbol, s.description) then HalalBadge else HaramBadge)
    else ""
  }

  /** The payload of the confirm button. */
  function ConfirmPayload(symbol: string, direction: string): string
  {
    ConfirmTag + ":" + symbol + ":" + direction
  }

  /** The confirm payload is the tag, the symbol and the direction joined
      by `:`. */
  lemma ConfirmPayloadIsJoin(symbol: string, direction: string)
    ensures ConfirmPayload(symbol, direction) == Join([ConfirmTag, symbol, direction], ':')
  {
    var parts := [ConfirmTag, symbol, direction];
    assert parts[1..] == [symbol, direction];
    assert parts[1..][1..] == [direction];
    assert Join([direction], ':') == direction;
    assert Join(parts[1..], ':') == symbol + [':'] + direction;
    assert Join(parts, ':') == ConfirmTag + [':'] + (symbol + [':'] + direction);
  }

  /** The layout of a signal's text: one line per field in a fixed order,
      the badge line last (empty when no badge applies). */
  function Layout(s: Signal): (lines: seq<string>)
  {
    ["\U{1F6A8} New " + ToUpper(s.market) + " Signal",
     "Pair: " + s.symbol,
     "Timeframe: " + s.timeframe,
     "Direction: " + s.direction,
     "Entry: " + s.entryPrice,
     "TP: " + s.takeProfit,
     "SL: " + s.stopLoss,
     Badge(s)]
  }

  /** The message for signal `s`: the layout's lines separated by line
      breaks, and the confirm and ignore buttons. */
  function RenderSignal(s: Signal): (m: Message)
    ensures |m.buttons| == 2
    ensures m.buttons[0].data == Join([ConfirmTag, s.symbol, s.direction], ':')
    ensures m.buttons[1].data == IgnorePayload
  {
    var confirm := ConfirmPayload(s.symbol, s.direction);
    ConfirmPayloadIsJoin(s.symbol, s.direction);
    Message(
      Join(Layout(s), '\n'),
      [Button("\U{2705} Confirm", confirm),
       Button("\U{274C} Ignore", IgnorePayload)])
  }

  /** No field of the signal that appears in the text holds a line break. */
  predicate SingleLineFields(s: Signal)
  {
    '\n' !in s.market && '\n' !in s.symbol && '\n' !in s.timeframe && '\n' !in s.direction
    && '\n' !in s.entryPrice && '\n' !in s.takeProfit && '\n' !in s.stopLoss
  }

  /** Upper-casing the market cannot introduce a line break, and neither
      can the fixed captions, so every line of the layout is a single line. */
  lemma LayoutLinesSingle(s: Signal)
    requires SingleLineFields(s)
    ensures forall i :: 0 <= i < |Layout(s)| ==> '\n' !in Layout(s)[i]
  {
    UpperKeepsNonLetterOut(s.market, '\n');
    var l := Layout(s);
    assert '\n' !in l[0];
    assert '\n' !in l[1];
    assert '\n' !in l[2];
    assert '\n' !in l[3];
    assert '\n' !in l[4];
    assert '\n' !in l[5];
    assert '\n' !in l[6];
    assert '\n' !in l[7];
  }

  /** The layout is fixed: reading the text back line by line recovers each
      field in its place, and the badge as the last line. */
  lemma RenderLayout(s: Signal)
    requires SingleLineFields(s)
    ensures Split(RenderSignal(s).text, '\n') == Layout(s)
    ensures |Split(RenderSignal(s).text, '\n')| == 8
    ensures Split(RenderSignal(s).text, '\n')[7] == Badge(s)
  {
    LayoutLinesSingle(s);
    SplitJoin(Layout(s), '\n');
  }
}

=== FILE: signals.dfy ===
/** The signal record the simulated-market commands build and hand to the
    filter and the renderer. */
module Signals {
  import opened Text

  /** One trading signal. Prices are kept as the text the commands supply
      ("1.0850", "N/A"); the three ICT structural tags are booleans, a missing
      tag counting as false. */
  datatype Signal = Signal(
    symbol: string,
    direction: string,
    timeframe: string,
    market: string,
    entryPrice: string,
    stopLoss: string,
    takeProfit: string,
    description: string,
    liquidity: bool,
    orderBlock: bool,
    fvg: bool)

  /** The markets, lower-cased, whose coins are screened by the halal
      classifier. */
  const HalalScreenedMarkets: set<string> := {"crypto", "memecoins"}

  predicate IsHalalScreened(s: Signal)
  {
    ToLower(s.market) in HalalScreenedMarkets
  }

  /** At least one of the ICT structural elements is present. */
  predicate HasIctStructure(s: Signal)
  {
    s.liquidity || s.orderBlock || s.fvg
  }
}

=== FILE: text.dfy ===
/** The handful of Python string operations the bot relies on, restricted to
    ASCII: `lower`, `upper`, `capitalize`, `startswith`, the substring test
    `needle in hay`, `sep.join(parts)` and `s.split(sep)` for a one-character
    separator. */
module Text {

  /** `str.lower` on one character; letters outside A-Z are left alone. */
  function LowerChar(c: char): char
  {
    if 'A' <= c <= 'Z' then (c as int + 32) as char else c
  }

  /** `str.upper` on one character; letters outside a-z are left alone. */
  function UpperChar(c: char): char
  {
    if 'a' <= c <= 'z' then (c as int - 32) as char else c
  }

  function ToLower(s: string): string
  {
    seq(|s|, i requires 0 <= i < |s| => LowerChar(s[i]))
  }

  function ToUpper(s: string): string
  {
    seq(|s|, i requires 0 <= i < |s| => UpperChar(s[i]))
  }

  /** `str.capitalize`: the first character upper-cased, the rest lower-cased. */
  function Capitalize(s: string): string
  {
    if |s| == 0 then "" else [UpperChar(s[0])] + ToLower(s[1..])
  }

  /** Lower-casing forgets whether a letter was upper-cased first. */
  lemma LowerOfUpper(s: string)
    ensures ToLower(ToUpper(s)) == ToLower(s)
  {
    assert forall i :: 0 <= i < |s| ==> ToLower(ToUpper(s))[i] == ToLower(s)[i];
  }

  lemma LowerIdempotent(s: string)
    ensures ToLower(ToLower(s)) == ToLower(s)
  {
    assert forall i :: 0 <= i < |s| ==> ToLower(ToLower(s))[i] == ToLower(s)[i];
  }

  /** Lower-casing works character by character, so it distributes over `+`. */
  lemma LowerAppend(a: string, b: string)
    ensures ToLower(a + b) == ToLower(a) + ToLower(b)
  {
    assert forall i :: 0 <= i < |a + b| ==> ToLower(a + b)[i] == (ToLower(a) + ToLower(b))[i];
  }

  /** Upper-casing never creates or removes the character `c` unless `c` is
      a letter. */
  lemma UpperKeepsNonLetterOut(s: string, c: char)
    requires c !in s
    requires !('a' <= c <= 'z') && !('A' <= c <= 'Z')
    ensures c !in ToUpper(s)
  {
    assert forall i :: 0 <= i < |s| ==> ToUpper(s)[i] != c;
  }

  /** `s.startswith(prefix)`. */
  predicate StartsWith(s: string, prefix: string)
  {
    |prefix| <= |s| && s[..|prefix|] == prefix
  }

  /** `needle` occurs in `hay` starting at position `i`. */
  predicate OccursAt(hay: string, needle: string, i: int)
  {
    0 <= i && i + |needle| <= |hay| && hay[i..i + |needle|] == needle
  }

  /** `needle in hay`, scanning the start positions of `hay` left to right. */
  predicate Contains(hay: string, needle: string)
    decreases |hay|
  {
    StartsWith(hay, needle) || (|hay| > 0 && Contains(hay[1..], needle))
  }

  /** The scan finds the needle exactly when it occurs somewhere. */
  lemma {:induction false} ContainsIffOccurs(hay: string, needle: string)
    ensures Contains(hay, needle) <==> exists i :: OccursAt(hay, needle, i)
    decreases |hay|
  {
    if StartsWith(hay, needle) {
      assert OccursAt(hay, needle, 0);
    } else if |hay| > 0 {
      ContainsIffOccurs(hay[1..], needle);
      if Contains(hay[1..], needle) {
        var i :| OccursAt(hay[1..], needle, i);
        assert hay[1..][i..i + |needle|] == hay[i + 1..i + 1 + |needle|];
        assert OccursAt(hay, needle, i + 1);
      }
      if exists i :: OccursAt(hay, needle, i) {
        var i :| OccursAt(hay, needle, i);
        if i > 0 {
          assert hay[1..][i - 1..i - 1 + |needle|] == hay[i..i + |needle|];
          assert OccursAt(hay[1..], needle, i - 1);
        }
      }
    }
  }

  /** A substring of a part is a substring of any text built around it. */
  lemma ContainsInConcat(a: string, b: string, needle: string)
    ensures Contains(a, needle) ==> Contains(a + b, needle)
    ensures Contains(b, needle) ==> Contains(a + b, needle)
  {
    ContainsIffOccurs(a, needle);
    ContainsIffOccurs(b, needle);
    ContainsIffOccurs(a + b, needle);
    if Contains(a, needle) {
      var i :| OccursAt(a, needle, i);
      assert (a + b)[i..i + |needle|] == a[i..i + |needle|];
      assert OccursAt(a + b, needle, i);
    }
    if Contains(b, needle) {
      var i :| OccursAt(b, needle, i);
      assert (a + b)[|a| + i..|a| + i + |needle|] == b[i..i + |needle|];
      assert OccursAt(a + b, needle, |a| + i);
    }
  }

  /** `sep.join(parts)` for a one-character separator. */
  function Join(parts: seq<string>, sep: char): string
  {
    if |parts| == 0 then ""
    else if |parts| == 1 then parts[0]
    else parts[0] + [sep] + Join(parts[1..], sep)
  }

  /** `s.split(sep)` for a one-character separator: the pieces between the
      separators, so there is always one more piece than separators, no piece
      holds the separator. */
  function Split(s: string, sep: char): (parts: seq<string>)
    ensures |parts| == multiset(s)[sep] + 1
    ensures forall i :: 0 <= i < |parts| ==> sep !in parts[i]
    decreases |s|
  {
    if |s| == 0 then [""]
    else
      var rest := Split(s[1..], sep);
      assert s == [s[0]] + s[1..];
      if s[0] == sep then
        [""] + rest
      else
        [[s[0]] + rest[0]] + rest[1..]
  }

  /** Joining a piece in front of at least one more piece puts one
      separator between them. */
  lemma JoinFront(p: string, rest: seq<string>, sep: char)
    requires |rest| >= 1
    ensures Join([p] + rest, sep) == p + [sep] + Join(rest, sep)
  {
    assert ([p] + rest)[1..] == rest;
  }

  /** A split of text starting with the separator begins with an empty
      piece. */
  lemma SplitLeadingSeparator(s: string, sep: char)
    requires |s| > 0 && s[0] == sep
    ensures Split(s, sep) == [""] + Split(s[1..], sep)
  {
  }

  /** A split of text starting with another character glues that character
      to the front of the tail's first piece. */
  lemma SplitLeadingOther(s: string, sep: char)
    requires |s| > 0 && s[0] != sep
    ensures Split(s, sep) == [[s[0]] + Split(s[1..], sep)[0]] + Split(s[1..], sep)[1..]
  {
  }

  /** One step of the round trip: if joining the split of the tail gives
      the tail back, joining the split of the whole text gives it back. */
  lemma JoinSplitStep(s: string, sep: char)
    requires |s| > 0
    requires Join(Split(s[1..], sep), sep) == s[1..]
    ensures Join(Split(s, sep), sep) == s
  {
    if s[0] == sep {
      JoinSplitAtSeparator(s, sep);
    } else {
      JoinSplitAtOther(s, sep);
    }
  }

  /** The step for text starting with the separator. */
  lemma JoinSplitAtSeparator(s: string, sep: char)
    requires |s| > 0 && s[0] == sep
    requires Join(Split(s[1..], sep), sep) == s[1..]
    ensures Join(Split(s, sep), sep) == s
  {
    var tail := s[1..];
    SplitLeadingSeparator(s, sep);
    JoinFront("", Split(tail, sep), sep);
    assert Join(Split(s, sep), sep) == [sep] + tail;
    assert [s[0]] + tail == s;
  }

  /** The step for text starting with another character. */
  lemma JoinSplitAtOther(s: string, sep: char)
    requires |s| > 0 && s[0] != sep
    requires Join(Split(s[1..], sep), sep) == s[1..]
    ensures Join(Split(s, sep), sep) == s
  {
    var tail := s[1..];
    SplitLeadingOther(s, sep);
    JoinGlue(s[0], Split(tail, sep), sep);
    assert Join(Split(s, sep), sep) == [s[0]] + tail;
    assert [s[0]] + tail == s;
  }

  /** Gluing a character to the front of the first piece puts it in front
      of the whole join. */
  lemma JoinGlue(c: char, parts: seq<string>, sep: char)
    requires |parts| >= 1
    ensures Join([[c] + parts[0]] + parts[1..], sep) == [c] + Join(parts, sep)
  {
    var tail := parts[1..];
    if |parts| == 1 {
      assert [[c] + parts[0]] + tail == [[c] + parts[0]];
    } else {
      assert parts == [parts[0]] + tail;
      JoinFront(parts[0], tail, sep);
      JoinFront([c] + parts[0], tail, sep);
    }
  }

  /** Joining the pieces of a split gives the original text back. */
  lemma {:induction false} JoinSplit(s: string, sep: char)
    ensures Join(Split(s, sep), sep) == s
    decreases |s|
  {
    if |s| > 0 {
      JoinSplit(s[1..], sep);
      JoinSplitStep(s, sep);
    }
  }

  /** Text that starts with the separator splits into an empty piece
      followed by the pieces of the rest. */
  lemma SplitAfterSeparator(rest: string, sep: char)
    ensures Split([sep] + rest, sep) == [""] + Split(rest, sep)
  {
    assert ([sep] + rest)[1..] == rest;
  }

  /** Splitting text that starts with a separator-free piece `p`: `p` is
      glued to the front of the first piece of the rest. */
  lemma {:induction false} SplitAfterPiece(p: string, t: string, sep: char)
    requires sep !in p
    ensures Split(p + t, sep) == [p + Split(t, sep)[0]] + Split(t, sep)[1..]
    decreases |p|
  {
    if |p| == 0 {
      var parts := Split(t, sep);
      assert p + t == t;
      assert p + parts[0] == parts[0];
      assert [parts[0]] + parts[1..] == parts;
    } else {
      assert (p + t)[0] == p[0];
      assert (p + t)[1..] == p[1..] + t;
      SplitLeadingOther(p + t, sep);
      SplitAfterPiece(p[1..], t, sep);
      assert [p[0]] + (p[1..] + Split(t, sep)[0]) == p + Split(t, sep)[0];
    }
  }

  /** A separator-free piece followed by the separator splits off as the
      first piece. */
  lemma SplitPieceThenSeparator(p: string, rest: string, sep: char)
    requires sep !in p
    ensures Split(p + [sep] + rest, sep) == [p] + Split(rest, sep)
  {
    assert p + [sep] + rest == p + ([sep] + rest);
    SplitAfterPiece(p, [sep] + rest, sep);
    SplitAfterSeparator(rest, sep);
    assert p + "" == p;
  }

  /** Splitting undoes joining, as long as no piece holds the separator. */
  lemma {:induction false} SplitJoin(parts: seq<string>, sep: char)
    requires |parts| >= 1
    requires forall i :: 0 <= i < |parts| ==> sep !in parts[i]
    ensures Split(Join(parts, sep), sep) == parts
    decreases |parts|
  {
    if |parts| == 1 {
      SplitAfterPiece(parts[0], "", sep);
      assert parts[0] + "" == parts[0];
    } else {
      var tail := parts[1..];
      SplitJoin(tail, sep);
      assert parts == [parts[0]] + tail;
      JoinFront(parts[0], tail, sep);
      SplitPieceThenSeparator(parts[0], Join(tail, sep), sep);
    }
  }
}

=== FILE: wrappers.dfy ===
/** Failure-carrying datatypes used across the model: a Python `dict.get`
    with a default becomes `Option.GetOr`, and a handler that raises becomes
    a `Result.Failure` carrying the exception's text. */
module Wrappers {

  datatype Option<+T> = None | Some(value: T) {

    /** The contained value, or `default` when there is none. */
    function GetOr(default: T): T
    {
      match this
      case Some(v) => v
      case None => default
    }
  }

  datatype Result<+R, +E> = Success(value: R) | Failure(error: E)
}
